=== FILE: README.md ===
# db-tui core, modelled in Dafny

This project models the keyboard state machines of a terminal database
manager (`db-tui`, written in Rust) and proves properties about them:

- the controller's tab focus (next/previous tab skipping disabled tabs), its
  two-mode key router (main view or log overlay), the key-press filter, the
  quit flag and the `run` loop;
- the four tab kinds, their defaults, their list cursors and the
  `NewConnection` event the connections tab raises;
- the new-connection form (focus cursor over four fields, per-field
  validation, cancel event) and the quit confirmation gate;
- the `u16` arithmetic that places both popups on screen;
- the theme's style functions.

Everything is a pure function over immutable datatypes. A handler that
sends on the event bus returns the events it sent as a sequence. Rust
debug-build arithmetic is explicit: an unsigned result out of range, or a
division by zero, is `Checked.Panic(fault)`, not a precondition.

Files: `common.dfy` (Option, Checked, u16), `input.dfy` (key events,
`AppEvent`), `list_cursor.dfy`, `tabs.dfy`, `tab_switch.dfy`,
`geometry.dfy`, `connection_popup.dfy`, `quit_confirm_popup.dfy`,
`styling.dfy`, `controller.dfy`.

Behaviour of the code worth knowing:

- In the main view only `q` quits. Esc is forwarded to the focused tab.
- In the log overlay only `q` and F12 close it. Esc does nothing.
- Pressing Tab repeatedly from the default state alternates between tabs
  0 and 1.
- The list cursor wraps at the item count cached by the last draw, not at the
  live list length.
- Nothing in `src/main.rs` receives the events a tab raises, and no popup
  is ever opened by it. The model reports those events in each step's result.
- `src/main.rs` imports the stub module `db_connecitons_tab`, which has no
  `Default` and no `DBTab` implementation. The Connections tab here is the
  one in `src/tabs/db_connections_tab.rs`.
- The connections and databases tabs take a bus parameter that the `DBTab`
  trait lacks. Every tab here returns a (possibly empty) event sequence.

## Model

| member | source | states |
|---|---|---|
| ListCursor.Down | src/tabs/db_types_tab.rs:85-94 | Panics exactly when the cached count is 0. Otherwise the result is always below the count, equals `(i+1) mod count` for an in-range selection `i` (no selection counts as 0), and clamps an out-of-range selection to the last item. |
| ListCursor.Up | src/tabs/db_types_tab.rs:95-103 | Panics only when moving up from item 0 with a count of 0. For an in-range selection the result is `(i-1) mod count`. Any selection above 0 becomes `i-1`. |
| ListCursor.MovesStayInRange | src/tabs/db_connections_tab.rs:99-117 | An in-range selection stays in range after Up or Down, and neither move panics. |
| ListCursor.WrapsAtBothEnds | src/tabs/db_connections_tab.rs:99-117 | Down from the last item gives 0. Up from item 0, or from no selection, gives `count-1`. |
| ListCursor.UpDownInverse | src/tabs/db_types_tab.rs:85-103 | For an in-range selection, Up after Down restores it, and so does Down after Up. |
| ListCursor.SingleItemStays | src/tabs/db_connections_tab.rs:53 | With one item and selection 0 (or none), both moves leave the selection at 0. |
| Tabs.AsStr | src/tabs/db_types_tab.rs:33-42 | Each engine has a non-empty display name. |
| Tabs.AsStrInjective | src/tabs/db_types_tab.rs:28-42 | The four engines have four different names. |
| Tabs.DefaultTypesTab | src/tabs/db_types_tab.rs:44-54 | Titled "Types", enabled, item 0 selected, and a cached count of 0 until the first draw. |
| Tabs.DefaultConnectionsTab | src/tabs/db_connections_tab.rs:37-57 | Titled "Connections" and enabled. Holds exactly one entry, the "Create New Connection" placeholder marked create-new. Selects it, and caches a count equal to the list length (1). |
| Tabs.DefaultDatabasesTab | src/tabs/db_databases_tab.rs:23-30 | Titled "Databases" and disabled. |
| Tabs.DefaultTablesTab | src/tabs/db_tables_tab.rs:18-25 | Titled "Tables" and disabled. |
| Tabs.IsDisabled | src/tabs/db_types_tab.rs:109-111 | Reads a tab's disabled flag; `SetThenGet` states it returns what `SetDisabled` wrote. |
| Tabs.SetDisabled | src/tabs/db_types_tab.rs:113-115 | The flag reads back as set, the title is kept, and every other field of the tab is unchanged. |
| Tabs.GetTitle | src/tabs/db_types_tab.rs:117-119 | Reads a tab's title; `SetDisabled` and every handled key keep it. |
| Tabs.SetThenGet | src/tabs/db_databases_tab.rs:58-64 | `is_disabled` after `set_disabled(b)` returns `b`. Setting the old flag back restores the tab exactly. |
| Tabs.Draw | src/tabs/db_connections_tab.rs:77 | Drawing changes only the cached count of a list tab. The count becomes the number of items drawn: 4 engines for the types tab, the entry count for the connections tab. |
| Tabs.HandleInput | src/tabs/db_connections_tab.rs:90-121 | Never changes a tab's kind, title, flag or connection list. It raises `[NewConnection]` when the tab is the connections tab and the key is Enter, and no event otherwise. On a list tab, Down/j selects exactly the index `ListCursor.Down` gives and Up/k the index `ListCursor.Up` gives. Panics iff a list tab with a zero cached count gets Down/j, or gets Up/k at item 0. The databases and tables tabs ignore every key. Keys other than the cursor keys leave a tab unchanged. |
| Tabs.DrawnTabNeverPanics | src/tabs/db_types_tab.rs:69 | After a draw, no key makes a tab panic, provided a connections tab has at least one entry. |
| Tabs.UndrawnTypesTabPanics | src/tabs/db_types_tab.rs:50 | Down on the default types tab, before its first draw, is an unsigned underflow. |
| Tabs.DefaultConnectionsCursor | src/tabs/db_connections_tab.rs:96-117 | On the default connections tab, Up and Down change nothing. Enter raises exactly `[NewConnection]` and changes nothing. |
| TabSwitch.EnabledCount | src/main.rs:128 | The number of enabled tabs is at most the number of tabs. |
| TabSwitch.SwitchNext | src/main.rs:127-137 | With fewer than two enabled tabs the index is unchanged. Otherwise the call terminates on an enabled tab inside the list. From a valid index it reaches the first enabled tab strictly after the start, cyclically, skipping only disabled tabs, and never the start itself. |
| TabSwitch.SwitchPrev | src/main.rs:139-155 | The mirror image of `SwitchNext`: the first enabled tab strictly before the start, cyclically, wrapping 0 to `len-1`. It requires the index to be at most the tab count when switching is not a no-op, because of the `tabs[index]` read. |
| TabSwitch.NextThenPrev | src/main.rs:127-155 | From an enabled tab, with at least two enabled, previous-tab after next-tab returns to the start. |
| TabSwitch.PrevThenNext | src/main.rs:127-155 | From an enabled tab, with at least two enabled, next-tab after previous-tab returns to the start. |
| TabSwitch.NeverJumpsOverStart | src/main.rs:132-136 | A next switch either reaches an enabled start tab or moves strictly further from it; it never passes over it. |
| TabSwitch.ReturnsWithin | src/main.rs:127-137 | Repeated next switches from an enabled tab, with at least two enabled, visit only enabled tabs and return to the start within `len` steps. |
| Controller.Default | src/main.rs:39-56 | The tabs are Types, Connections, Databases and Tables in that order, each in its default state. Exactly the first two are enabled. Focus on tab 0, running, main view shown, and every connections tab has an entry. |
| Controller.Quit | src/main.rs:157-159 | Sets the quit flag to `Close` and changes nothing else. |
| Controller.HandleMainKey | src/main.rs:90-108 | `q` quits and F12 toggles the overlay. Tab with no modifiers switches next. Tab with SHIFT among the modifiers switches previous. Tab with any other modifiers changes nothing and is not forwarded. Every other key goes to the focused tab only, which may panic or raise events. The index stays valid and every tab keeps its kind, title and flag. |
| Controller.Forward | src/main.rs:102-104 | A forwarded key can change only the focused tab, and only as the tab's own handler does. The tab's panic and events pass through unchanged. |
| Controller.HandleLogKey | src/main.rs:110-125 | No key reaches a tab. The quit flag, tabs and focus never change. `q` closes the overlay and F12 toggles it. `j`/`k` add a next/previous page transition. Other keys change nothing. |
| Controller.HandleEvent | src/main.rs:77-88 | Only key presses are dispatched: to the overlay when it is shown, else to the main view. Every other event changes nothing. The quit flag changes only on a `q` press in the main view. |
| Controller.DrawFrame | src/main.rs:60-71 | A main-view frame refreshes only the focused tab's cached count. An overlay frame changes nothing. |
| Controller.SameFramesKeepShape | src/main.rs:128 | Input handling never changes the number of enabled tabs or empties a connection list. |
| Controller.DrawnFrameNeverPanics | src/main.rs:60-72 | A frame drawn before an event rules out every panic of that event's handling. |
| Controller.DefaultTabsAlternate | src/main.rs:45-51 | With the default tabs, `k` next switches from tab 0 land on `k mod 2`, so tabs 2 and 3 are never focused. |
| Controller.OverlayThenQ | src/main.rs:101 | From the main view, F12 then `q` closes only the overlay. The application keeps running and the state is as before. |
| Controller.Frame | src/main.rs:60-73 | One loop turn draws a frame and then handles one event. It never panics, keeps the state valid and the tab frames, and equals handling the event in the drawn state. |
| Controller.RunFrom | src/main.rs:59-75 | The loop as a fold over the inputs. It consumes no input when already quitting, stops with the quit flag set only right after a `q` key, otherwise consumes every input, and raises at most one event per input. |
| Controller.RunStopsAtQ | src/main.rs:60-73 | From the running main view, a `q` as the first input ends the run after exactly that input. |
| Controller.Run | src/main.rs:59-75 | The loop's final state, consumed count and raised events are exactly those of `RunFrom`: each consumed input is drawn and then handled, in order, until the first quit. It never panics, keeps the focus valid and the tab frames, and stops either on a `q` key or when the input runs out. |
| ConnectionPopup.New | src/ui/connection_popup/mod.rs:43-60 | Host is active, every field is one empty line, and every error message is empty. |
| ConnectionPopup.NextField | src/ui/connection_popup/mod.rs:237-244 | Moves to the field one position lower in the drawn form, Host, Database name, Username, Password, wrapping from Password to Host. |
| ConnectionPopup.PrevField | src/ui/connection_popup/mod.rs:246-253 | Moves to the field one position higher in the drawn form, wrapping from Host to Password. |
| ConnectionPopup.FieldCycle | src/ui/connection_popup/mod.rs:237-253 | Previous undoes next and next undoes previous. Four nexts are the identity, and shorter cycles do not return. |
| ConnectionPopup.Validate | src/ui/connection_popup/mod.rs:278-308 | A field's message is empty iff its first line is non-empty; otherwise it is that field's fixed message. The lines, the active field, the driver name and the other messages are unchanged. |
| ConnectionPopup.ValidateAll | src/ui/connection_popup/mod.rs:266-276 | Every message agrees with its field. The result is true iff all four first lines are non-empty. Buffers and focus are unchanged. |
| ConnectionPopup.HandleTextInput | src/ui/connection_popup/mod.rs:255-264 | Only the active field's lines go through the editor, and only its message is recomputed. The other three fields and messages are unchanged. |
| ConnectionPopup.HandleInput | src/ui/connection_popup/mod.rs:202-235 | Esc, or `c` with CONTROL, raises exactly `[CancelClosePopup]` and changes nothing. Plain `c` does nothing at all. Enter re-validates all fields and raises nothing. Tab/Down move to the next field and Up to the previous one, with no other change. Every other key edits the active field. |
| ConnectionPopup.HandleInputKeepsValidation | src/ui/connection_popup/mod.rs:202-222 | If every message agrees with its field, that still holds after any key. |
| ConnectionPopup.TwoFieldsFilledScenario | src/ui/connection_popup/mod.rs:202-235 | Type into Host, Tab, type into Database Name, then Enter. Exactly the Username and Password messages are shown. |
| ConnectionPopup.RenderArea | src/ui/connection_popup/mod.rs:66-72 | Succeeds iff the area has at least 20 rows and 2 to 936 columns. The popup is 70% wide and fits horizontally. It keeps its 20 rows iff the area is at least 139 columns wide; a narrower popup is exactly `20 + 97 / width` rows tall. |
| ConnectionPopup.RenderAreaPanics | src/ui/connection_popup/mod.rs:320-326 | A 19-row area underflows, a 1-column area divides by zero, and a 937-column area overflows. |
| ConnectionPopup.PlainCNeverReachesField | src/ui/connection_popup/mod.rs:211-215 | As written, a plain `c` leaves the form unchanged and raises nothing. With an appending editor, the Host field stays empty. |
| ConnectionPopup.HandleInputIntended | src/ui/connection_popup/mod.rs:207-219 | Corrected handler: any character typed without CONTROL is passed to the active field and re-validates it, raises no event, and leaves the other fields, their messages, the focus and the driver name unchanged. All other keys behave as in `HandleInput`. |
| ConnectionPopup.IntendedTypesC | src/ui/connection_popup/mod.rs:219 | With the corrected handler, typing `c` puts "c" into Host. |
| QuitConfirmPopup.HandleInput | src/ui/quit_confirm_popup/mod.rs:67-87 | At most one event per key. `[CancelClosePopup]` iff Esc or `c`. `[ConfirmQuitApp]` iff Enter or `q`. Nothing otherwise. |
| QuitConfirmPopup.IgnoresModifiers | src/ui/quit_confirm_popup/mod.rs:72-76 | The events depend only on the key code. |
| QuitConfirmPopup.RenderArea | src/ui/quit_confirm_popup/mod.rs:24-30 | Succeeds iff the area has at least 8 rows and 3 to 1638 columns. The popup is 40% wide and fits horizontally. It keeps its 8 rows iff the area is at least 125 columns wide; a narrower popup is exactly `8 + 50 / width` rows tall. |
| QuitConfirmPopup.RenderAreaPanics | src/ui/quit_confirm_popup/mod.rs:89-95 | A 7-row area underflows, a 2-column area divides by zero, and a 1639-column area overflows. |
| Geometry.CenteredRectExactHeight | src/ui/connection_popup/mod.rs:320-326 | Panics on overflow iff `width*percent` exceeds `u16`, and succeeds iff additionally the popup fits the area. On success: width `width*percent/100`, the requested height, and margins centred to within one cell on both axes. |
| Geometry.WithinClipBound | src/ui/connection_popup/mod.rs:320-326 | For a requested height of at most 100 rows, a successful rectangle has width times height at most `u16::MAX`. Both popups (20 and 8 rows) therefore never reach the clipping in ratatui's `Rect::new`. |
| Geometry.CenteredRectFits | src/ui/quit_confirm_popup/mod.rs:89-95 | For a percentage of at most 100, only the product and the height can fail, and `x + width <= area.width`. |
| Geometry.CenteredRectIgnoresOrigin | src/ui/connection_popup/mod.rs:320-326 | The result does not depend on `area.x` or `area.y`. |
| Geometry.FooterAdjust | src/ui/connection_popup/mod.rs:69-72 | Divides by zero iff the popup is 0 columns wide. Succeeds iff the popup is at least as wide as the footer, or is non-empty and its grown height fits in `u16`. Only the height changes, and it changes iff the popup is narrower than the footer. Then it grows by exactly `footerLen / width` rows, and those rows plus one hold the footer wrapped at the popup width. |
| Geometry.CenteredRectSaturating | src/ui/connection_popup/mod.rs:320-326 | Corrected placement for any area: the same rectangle whenever the original succeeds, fits horizontally, and fits vertically when the area is tall enough. When the area is shorter than the popup, the popup is placed at the top. |
| Geometry.FooterAdjustGuarded | src/ui/connection_popup/mod.rs:69-72 | Corrected adjustment: a zero-width popup is left as is, the addition saturates, and the result equals the original's whenever that succeeds. |
| Styling.DefaultTheme | src/ui/style.rs:107-122 | The built-in colours: selected tab Yellow, disabled DarkGray, enabled Blue, selection White on Blue, command bar Blue. |
| Styling.Init | src/ui/style.rs:101-104 | Loading a theme ignores the path and yields the built-in theme. |
| Styling.BlockStyle | src/ui/style.rs:30-36 | A focused block is the plain style. An unfocused one has only the disabled foreground. |
| Styling.TitleStyle | src/ui/style.rs:38-46 | Modifiers exactly `{Bold}` when focused and none otherwise, with foreground `block_title_focused` when focused and the disabled colour otherwise. |
| Styling.TextStyle | src/ui/style.rs:59-66 | No modifiers and exactly one colour set. The background is set iff the item is disabled and selected. A disabled item shows only the disabled colour. An enabled item has the command colour when selected and the enabled colour otherwise. |
| Styling.TabStyle | src/ui/style.rs:48-57 | An unselected tab looks like unselected text. A selected tab is `selected_tab` on Reset, in bold. |
| Styling.ApplySelect | src/ui/style.rs:68-74 | Unselected leaves the style unchanged. Selected sets the selection foreground and background. Modifiers are kept. |
| Styling.CommandbarStyle | src/ui/style.rs:84-95 | The foreground is the command colour when enabled and the disabled colour otherwise. The background is `cmdbar_bg` on line 0 and the extra-lines colour otherwise. No modifiers. |
| Styling.SelectedTabIgnoresEnabled | src/ui/style.rs:48-54 | `tab(true, true) == tab(false, true)`. |
| Styling.ApplySelectIdempotent | src/ui/style.rs:68-74 | Applying the same selection twice is the same as once. |
| Styling.DefaultThemeDistinguishesTabs | src/ui/style.rs:107-122 | Under the built-in theme, enabled, disabled and highlighted tabs look pairwise different, and every command-bar line is Blue. |

## Left out

- Terminal setup and teardown (`src/tui.rs`), the `main` function, and every rendering call. They are I/O on a foreign widget library. Drawing is modelled only by its state effect on cached item counts.
- Text editing inside a field, the password mask and cursor/border styling belong to the foreign text widget. The editor is a function parameter that keeps at least one line.
- Log paging is foreign widget state. It is modelled as the list of paging transitions applied.
- I/O errors from reading events or drawing are not modelled. A finite input sequence stands for the blocking event source, and the loop also stops when it runs out.
- `get_db_driver_name`, `scroll_bar_pos`, `text_danger`, `line_break` and `attention_block` are accessors that decide nothing.
- The unused `selected` fields of the list tabs are left out.
- The theme file test in `src/ui/style.rs` expects file patching that `init` does not do. It is not encoded.
- Argument parsing, key-list loading and string helpers (`src/args.rs`, `src/keys/key_list.rs`, `src/strings.rs`) are configuration I/O or depend on foreign crates.
- ListCursor.Down: list selections are unbounded naturals, so the `usize` overflow of `current + 1` at `usize::MAX` is not modelled. No in-range selection can reach it.
- Geometry.CenteredRectExactHeight: builds the rectangle directly. ratatui's `Rect::new` shrinks a rectangle whose area exceeds `u16::MAX`, keeping its aspect ratio in floating point. That is not modelled, so the width and height stated are exact only when width times height fits in `u16`. Geometry.WithinClipBound shows this always holds for the two popups.
- Release builds wrap unsigned arithmetic instead of panicking. The model follows debug builds throughout.

## Findings

| source | as written | input that shows it | evidently intended | confidence | as-written member | corrected member |
|---|---|---|---|---|---|---|
| src/ui/connection_popup/mod.rs:211-215 | `Char('c')` is matched before the catch-all that feeds the text widget, and it does nothing without CONTROL | typing "localhost" into Host: the `c` never reaches the field | only Ctrl+C cancels; a plain `c` is typed like other letters | high, not executed | ConnectionPopup.PlainCNeverReachesField | ConnectionPopup.HandleInputIntended |
| src/ui/connection_popup/mod.rs:324 | `(area.height - popup_height) / 2` in `u16` | an 80x19 terminal with the connection form open (or 80x7 with the quit popup): unsigned underflow, which panics in a debug build | the popup is placed at the top when the area is shorter than it | medium, not executed | ConnectionPopup.RenderAreaPanics | Geometry.CenteredRectSaturating |
| src/ui/connection_popup/mod.rs:70-71 | `FOOTER_LEN / area.width` when the popup is narrower than the footer, including 0 columns wide | a 1-column area (2 columns for the quit popup): division by zero | no adjustment for a popup with no columns | medium, not executed | Geometry.FooterAdjust | Geometry.FooterAdjustGuarded |
| src/ui/connection_popup/mod.rs:321 | `area.width * percent_x` multiplied in `u16` | a 937-column area (1639 for the quit popup): overflow, which panics in a debug build | the product computed in a wider type, since the quotient always fits | medium, not executed | ConnectionPopup.RenderAreaPanics | Geometry.CenteredRectSaturating |

=== FILE: common.dfy ===
/** Vocabulary shared by every module: optional values, Rust's checked
    unsigned arithmetic, and the `u16` range used by terminal geometry. */
module Common {

  /** Rust's `Option`. */
  datatype Option<+T> = None | Some(value: T) {

    /** `unwrap_or`: the carried value, or `default` when there is none. */
    function UnwrapOr(default: T): T {
      match this
      case Some(v) => v
      case None => default
    }
  }

  /** Why a debug build of the program aborts: an unsigned result below zero
      or above the type's maximum, or an integer division by zero. */
  datatype Fault = Underflow | Overflow | DivideByZero

  /** The result of code that can panic on arithmetic. */
  datatype Checked<+T> = Ok(value: T) | Panic(fault: Fault)

  const U16_MAX: int := 0xFFFF

  /** Rust's `u16`. */
  type u16 = x: int | 0 <= x <= U16_MAX

  function Min(a: int, b: int): int {
    if a <= b then a else b
  }
}

=== FILE: connection_popup.dfy ===
/** The new-connection form: four text fields (host, database name, user
    name, password), a cursor naming the active one, and one error message
    per field.  Text editing belongs to a foreign widget and is a parameter
    here: `edit` maps a field's lines and a key to its new lines; the widget
    always keeps at least one line. */
module ConnectionPopup {
  import opened Common
  import opened Input
  import opened AppEvents
  import opened Geometry

  datatype ActiveText = Host | DbName | Username | Password

  /** A text area's lines; never empty. */
  type TextLines = s: seq<string> | |s| > 0 witness [""]

  /** The foreign text widget's reaction to one key. */
  type Editor = (TextLines, KeyEvent) -> TextLines

  datatype Popup = Popup(
    dbDriverName: string,
    hostText: TextLines,
    dbNameText: TextLines,
    usernameText: TextLines,
    passwordText: TextLines,
    active: ActiveText,
    hostErr: string,
    dbNameErr: string,
    usernameErr: string,
    passwordErr: string)

  const FooterText: string :=
    "Enter or <Ctrl-m>: confirm | Esc or <Ctrl-c>: Cancel | Tab: Change focused control"
  const FooterMargin: u16 := 15
  const FooterLen: u16 := |FooterText| + FooterMargin

  function Lines(p: Popup, f: ActiveText): TextLines {
    match f
    case Host => p.hostText
    case DbName => p.dbNameText
    case Username => p.usernameText
    case Password => p.passwordText
  }

  function ErrorMessage(p: Popup, f: ActiveText): string {
    match f
    case Host => p.hostErr
    case DbName => p.dbNameErr
    case Username => p.usernameErr
    case Password => p.passwordErr
  }

  /** The message a field shows when its first line is empty. */
  function EmptyMessage(f: ActiveText): (m: string)
    ensures |m| > 0
  {
    match f
    case Host => "Host cannot be empty."
    case DbName => "Database name cannot be empty."
    case Username => "Username cannot be empty."
    case Password => "Password cannot be empty."
  }

  /** The field's message agrees with its content: the field's own message
      when the first line is empty, no message otherwise. */
  predicate ShowsValidation(p: Popup, f: ActiveText) {
    ErrorMessage(p, f) == (if Lines(p, f)[0] == "" then EmptyMessage(f) else "")
  }

  /** `new`: all fields one empty line, Host active, no message shown. */
  function New(dbDriverName: string): (p: Popup)
    ensures p.active == Host && p.dbDriverName == dbDriverName
    ensures forall f :: Lines(p, f) == [""] && ErrorMessage(p, f) == ""
  {
    Popup(dbDriverName, [""], [""], [""], [""], Host, "", "", "", "")
  }

  /** A field's position in the form, top to bottom as it is drawn. */
  function FieldIndex(f: ActiveText): nat {
    match f
    case Host => 0
    case DbName => 1
    case Username => 2
    case Password => 3
  }

  /** `navigate_to_next_field`: the field below, wrapping to the top. */
  function NextField(f: ActiveText): (g: ActiveText)
    ensures g != f
    ensures FieldIndex(g) == (FieldIndex(f) + 1) % 4
  {
    match f
    case Host => DbName
    case DbName => Username
    case Username => Password
    case Password => Host
  }

  /** `navigate_to_previous_field`: the field above, wrapping to the
      bottom. */
  function PrevField(f: ActiveText): (g: ActiveText)
    ensures g != f
    ensures FieldIndex(g) == (FieldIndex(f) + 3) % 4
  {
    match f
    case Host => Password
    case DbName => Host
    case Username => DbName
    case Password => Username
  }

  /** The two moves are inverse, and four moves make a full turn. */
  lemma FieldCycle(f: ActiveText)
    ensures PrevField(NextField(f)) == f && NextField(PrevField(f)) == f
    ensures NextField(NextField(NextField(NextField(f)))) == f
    ensures NextField(f) != NextField(NextField(f)) && NextField(NextField(f)) != f
  {
  }

  /** Sets one field's lines. */
  function WithLines(p: Popup, f: ActiveText, lines: TextLines): (r: Popup)
    ensures Lines(r, f) == lines && r.active == p.active && r.dbDriverName == p.dbDriverName
    ensures forall g :: g != f ==> Lines(r, g) == Lines(p, g)
    ensures forall g :: ErrorMessage(r, g) == ErrorMessage(p, g)
  {
    match f
    case Host => p.(hostText := lines)
    case DbName => p.(dbNameText := lines)
    case Username => p.(usernameText := lines)
    case Password => p.(passwordText := lines)
  }

  function WithErrorMessage(p: Popup, f: ActiveText, m: string): (r: Popup)
    ensures ErrorMessage(r, f) == m && r.active == p.active && r.dbDriverName == p.dbDriverName
    ensures forall g :: g != f ==> ErrorMessage(r, g) == ErrorMessage(p, g)
    ensures forall g :: Lines(r, g) == Lines(p, g)
  {
    match f
    case Host => p.(hostErr := m)
    case DbName => p.(dbNameErr := m)
    case Username => p.(usernameErr := m)
    case Password => p.(passwordErr := m)
  }

  /** `validate_host`, `validate_dbname`, `validate_username`,
      `validate_password`: one field's message is recomputed. */
  function Validate(p: Popup, f: ActiveText): (r: Popup)
    ensures ShowsValidation(r, f)
    ensures ErrorMessage(r, f) == "" <==> Lines(p, f)[0] != ""
    ensures r.active == p.active && forall g :: Lines(r, g) == Lines(p, g)
    ensures forall g :: g != f ==> ErrorMessage(r, g) == ErrorMessage(p, g)
    ensures r.dbDriverName == p.dbDriverName
  {
    if Lines(p, f)[0] == "" then WithErrorMessage(p, f, EmptyMessage(f))
    else WithErrorMessage(p, f, "")
  }

  /** `validate_all`: every field re-validated; true when no field is empty. */
  function ValidateAll(p: Popup): (r: (Popup, bool))
    ensures forall f :: ShowsValidation(r.0, f)
    ensures r.1 <==> forall f :: Lines(p, f)[0] != ""
    ensures r.0.active == p.active && forall f :: Lines(r.0, f) == Lines(p, f)
    ensures r.0.dbDriverName == p.dbDriverName
  {
    var q := Validate(Validate(Validate(Validate(p, Host), DbName), Username), Password);
    (q, q.hostErr == "" && q.dbNameErr == "" && q.usernameErr == "" && q.passwordErr == "")
  }

  /** `handle_text_input`: the active field's widget takes the key, then
      only that field is re-validated. */
  function HandleTextInput(p: Popup, key: KeyEvent, edit: Editor): (r: Popup)
    ensures Lines(r, p.active) == edit(Lines(p, p.active), key)
    ensures ShowsValidation(r, p.active)
    ensures r.active == p.active && r.dbDriverName == p.dbDriverName
    ensures forall g :: g != p.active ==> Lines(r, g) == Lines(p, g) && ErrorMessage(r, g) == ErrorMessage(p, g)
  {
    Validate(WithLines(p, p.active, edit(Lines(p, p.active), key)), p.active)
  }

  /** `handle_input`: the new form and the events sent on the bus.
      `confirm` keeps the form open whatever validation says (submitting is
      not implemented), so Enter only refreshes the messages. */
  function HandleInput(p: Popup, key: KeyEvent, edit: Editor): (r: (Popup, seq<AppEvent>))
    ensures |r.1| <= 1 && (r.1 != [] ==> r.1 == [CancelClosePopup])
    ensures r.1 == [CancelClosePopup] <==> key.code == Esc || (key.code == Char('c') && Control in key.modifiers)
    ensures r.1 != [] ==> r.0 == p
    ensures key.code == Char('c') ==> r.0 == p
    ensures key.code == Enter ==>
      && r.0 == ValidateAll(p).0
      && forall f :: ShowsValidation(r.0, f) && Lines(r.0, f) == Lines(p, f)
    ensures key.code in {Tab, Down} ==> r.0 == p.(active := NextField(p.active))
    ensures key.code == Up ==> r.0 == p.(active := PrevField(p.active))
    ensures key.code !in {Esc, Char('c'), Enter, Tab, Down, Up} ==>
      r.0 == HandleTextInput(p, key, edit)
  {
    match key.code
    case Esc => (p, [CancelClosePopup])
    case Char('c') => if Control in key.modifiers then (p, [CancelClosePopup]) else (p, [])
    case Enter => (ValidateAll(p).0, [])
    case Tab => (p.(active := NextField(p.active)), [])
    case Down => (p.(active := NextField(p.active)), [])
    case Up => (p.(active := PrevField(p.active)), [])
    case _ => (HandleTextInput(p, key, edit), [])
  }

  /** A form whose messages all agree with the fields keeps that property
      under every key. */
  lemma HandleInputKeepsValidation(p: Popup, key: KeyEvent, edit: Editor)
    requires forall f :: ShowsValidation(p, f)
    ensures forall f :: ShowsValidation(HandleInput(p, key, edit).0, f)
  {
    var r := HandleInput(p, key, edit).0;
    forall f
      ensures ShowsValidation(r, f)
    {
      assert Lines(r, f) == Lines(p, f) || f == p.active;
      if Lines(r, f) == Lines(p, f) && ErrorMessage(r, f) == ErrorMessage(p, f) {
        assert ShowsValidation(p, f);
      }
    }
  }

  /** Filling two fields, moving between them and pressing Enter leaves
      exactly the two untouched fields with a message. */
  lemma TwoFieldsFilledScenario(driver: string, k1: KeyEvent, k2: KeyEvent, edit: Editor)
    requires k1.code !in {Esc, Char('c'), Enter, Tab, Down, Up}
    requires k2.code !in {Esc, Char('c'), Enter, Tab, Down, Up}
    requires edit([""], k1)[0] != "" && edit([""], k2)[0] != ""
    ensures var p0 := New(driver);
      var p1 := HandleInput(p0, k1, edit).0;
      var p2 := HandleInput(p1, Pressed(Tab, {}), edit).0;
      var p3 := HandleInput(p2, k2, edit).0;
      var p4 := HandleInput(p3, Pressed(Enter, {}), edit).0;
      && p4.hostErr == "" && p4.dbNameErr == ""
      && p4.usernameErr == EmptyMessage(Username) && p4.passwordErr == EmptyMessage(Password)
  {
  }

  // -----------------------------------------------------------------------
  // The letter c.  `Char('c')` is matched before the catch-all that feeds
  // the text widget, and without CONTROL it does nothing, so a plain `c`
  // can never be typed into any field ("localhost" cannot be entered).

  /** A minimal editor: a typed character is appended to the first line. */
  function AppendTyped(lines: TextLines, key: KeyEvent): (r: TextLines)
    ensures key.code.Char? ==> r[0] == lines[0] + [key.code.c]
  {
    match key.code
    case Char(ch) => lines[0 := lines[0] + [ch]]
    case _ => lines
  }

  /** As written: typing `c` into an empty Host field leaves it empty,
      whatever editor the widget is. */
  lemma PlainCNeverReachesField(driver: string, edit: Editor)
    ensures var p := New(driver);
      HandleInput(p, Pressed(Char('c'), {}), edit) == (p, [])
    ensures Lines(HandleInput(New(driver), Pressed(Char('c'), {}), AppendTyped).0, Host) == [""]
  {
  }

  /** The evidently intended handler: only Ctrl+C cancels; a `c` without
      CONTROL is text like any other character. */
  function HandleInputIntended(p: Popup, key: KeyEvent, edit: Editor): (r: (Popup, seq<AppEvent>))
    ensures key.code.Char? && Control !in key.modifiers ==>
      && r.1 == []
      && Lines(r.0, p.active) == edit(Lines(p, p.active), key)
      && ShowsValidation(r.0, p.active)
    ensures key.code == Char('c') && Control !in key.modifiers ==>
      && r.0.active == p.active && r.0.dbDriverName == p.dbDriverName
      && forall g :: g != p.active ==> Lines(r.0, g) == Lines(p, g) && ErrorMessage(r.0, g) == ErrorMessage(p, g)
    ensures key.code != Char('c') || Control in key.modifiers ==> r == HandleInput(p, key, edit)
  {
    if key.code == Char('c') && Control !in key.modifiers then (HandleTextInput(p, key, edit), [])
    else HandleInput(p, key, edit)
  }

  /** With the intended handler `c` is typed like any other letter. */
  lemma IntendedTypesC(driver: string)
    ensures Lines(HandleInputIntended(New(driver), Pressed(Char('c'), {}), AppendTyped).0, Host) == ["c"]
  {
    var typed := AppendTyped([""], Pressed(Char('c'), {}));
    assert typed[0] == "c";
    assert typed == ["c"];
  }

  /** The rectangle `render_widget` draws into: 70% wide, 20 rows high,
      taller when narrower than the footer. */
  function RenderArea(area: Rect): (r: Checked<Rect>)
    ensures r.Ok? <==> 20 <= area.height && 2 <= area.width <= 936
    ensures r.Ok? ==> r.value.width == area.width * 70 / 100 && r.value.x + r.value.width <= area.width
    ensures r.Ok? ==> (r.value.height == 20 <==> area.width >= 139)
    ensures r.Ok? && r.value.width < FooterLen ==>
      r.value.height == 20 + FooterLen / r.value.width
  {
    CenteredRectFits(70, 20, area);
    match CenteredRectExactHeight(70, 20, area)
    case Panic(f) => Panic(f)
    case Ok(centred) => FooterAdjust(centred, FooterLen)
  }

  /** A terminal shorter than 20 rows, one column wide, or more than 936
      columns wide crashes the render. */
  lemma RenderAreaPanics()
    ensures RenderArea(Rect(0, 0, 80, 19)) == Panic(Underflow)
    ensures RenderArea(Rect(0, 0, 1, 24)) == Panic(DivideByZero)
    ensures RenderArea(Rect(0, 0, 937, 24)) == Panic(Overflow)
  {
  }
}

=== FILE: controller.dfy ===
/** The application controller: the fixed tab list, the focused tab index,
    the quit flag and the log overlay, with the two-mode key router (main
    view or log overlay) and the frame loop that runs until the quit flag is
    set.  Tabs may raise events while handling a forwarded key; the
    controller holds no receiver for them, so they are only reported. */
module Controller {
  import opened Common
  import opened Input
  import opened AppEvents
  import Tabs
  import TabSwitch
  import Styling

  /** `QuitState::None` is `Running`. */
  datatype QuitState = Running | Close

  /** The log widget's paging transitions; its own state is foreign. */
  datatype LogPaging = NextPage | PrevPage

  datatype App = App(
    title: string,
    doQuit: QuitState,
    theme: Styling.Theme,
    tabs: seq<Tabs.Tab>,
    currentTab: nat,
    showLogs: bool,
    logPaging: seq<LogPaging>)

  /** The controller's structural invariant: the focused index is valid. */
  predicate Valid(app: App) {
    app.currentTab < |app.tabs|
  }

  /** Every connections tab has an entry to draw. */
  predicate TabsHaveItems(app: App) {
    forall k :: 0 <= k < |app.tabs| ==>
      (app.tabs[k].ConnectionsTab? ==> |app.tabs[k].connections| >= 1)
  }

  /** Two tab lists that agree on everything input handling may not change. */
  predicate SameTabFrames(a: seq<Tabs.Tab>, b: seq<Tabs.Tab>) {
    |a| == |b| && forall k :: 0 <= k < |a| ==> Tabs.SameFrame(a[k], b[k])
  }

  function DefaultTabs(): seq<Tabs.Tab> {
    [Tabs.DefaultTypesTab(), Tabs.DefaultConnectionsTab(),
     Tabs.DefaultDatabasesTab(), Tabs.DefaultTablesTab()]
  }

  /** `App::default`: four tabs of which only the first two are enabled,
      focus on the first, running, main view shown. */
  function Default(): (app: App)
    ensures Valid(app) && TabsHaveItems(app)
    ensures app.tabs == DefaultTabs()
    ensures app.doQuit == Running && !app.showLogs && app.currentTab == 0
    ensures |app.tabs| == 4 && TabSwitch.EnabledCount(app.tabs) == 2
    ensures TabSwitch.Enabled(app.tabs, 0) && TabSwitch.Enabled(app.tabs, 1)
  {
    var tabs := DefaultTabs();
    assert tabs[1..][1..][1..][1..] == [];
    App(" Database Manager ", Running, Styling.DefaultTheme(), tabs, 0, false, [])
  }

  /** `quit`: only the flag changes. */
  function Quit(app: App): (r: App)
    ensures r.doQuit == Close
    ensures r.(doQuit := app.doQuit) == app
  {
    app.(doQuit := Close)
  }

  /** The state after handling one event, with the events tabs raised. */
  datatype Outcome = Outcome(app: App, events: seq<AppEvent>)

  /** A key the main view forwards to the focused tab: only that tab may
      change. */
  function Forward(app: App, key: KeyEvent): (r: Checked<Outcome>)
    requires Valid(app)
    ensures r.Ok? ==> Valid(r.value.app) && SameTabFrames(app.tabs, r.value.app.tabs)
    ensures r.Ok? ==> r.value.app.(tabs := app.tabs) == app
    ensures r.Ok? ==> forall k :: 0 <= k < |app.tabs| && k != app.currentTab ==> r.value.app.tabs[k] == app.tabs[k]
    ensures var step := Tabs.HandleInput(app.tabs[app.currentTab], key);
      && (r.Ok? <==> step.Ok?)
      && (r.Ok? ==> r.value.app.tabs[app.currentTab] == step.value.tab && r.value.events == step.value.events)
  {
    match Tabs.HandleInput(app.tabs[app.currentTab], key)
    case Panic(f) => Panic(f)
    case Ok(step) => Ok(Outcome(app.(tabs := app.tabs[app.currentTab := step.tab]), step.events))
  }

  /** `handle_key_event_main_app`. */
  function HandleMainKey(app: App, key: KeyEvent): (r: Checked<Outcome>)
    requires Valid(app)
    ensures r.Ok? ==> Valid(r.value.app) && SameTabFrames(app.tabs, r.value.app.tabs)
    ensures r.Ok? ==> r.value.app.logPaging == app.logPaging
    ensures key.code == Char('q') ==> r == Ok(Outcome(Quit(app), []))
    ensures key.code == F(12) ==> r == Ok(Outcome(app.(showLogs := !app.showLogs), []))
    ensures key.code == Tab && key.modifiers == {} ==>
      r == Ok(Outcome(app.(currentTab := TabSwitch.SwitchNext(app.tabs, app.currentTab)), []))
    ensures key.code == Tab && Shift in key.modifiers ==>
      r == Ok(Outcome(app.(currentTab := TabSwitch.SwitchPrev(app.tabs, app.currentTab)), []))
    ensures key.code == Tab && key.modifiers != {} && Shift !in key.modifiers ==>
      r == Ok(Outcome(app, []))
    ensures key.code !in {Char('q'), Tab, F(12)} ==> r == Forward(app, key)
  {
    if key.code == Char('q') then Ok(Outcome(Quit(app), []))
    else if key.code == Tab then
      if key.modifiers == {} then
        Ok(Outcome(app.(currentTab := TabSwitch.SwitchNext(app.tabs, app.currentTab)), []))
      else if Shift in key.modifiers then
        Ok(Outcome(app.(currentTab := TabSwitch.SwitchPrev(app.tabs, app.currentTab)), []))
      else Ok(Outcome(app, []))
    else if key.code == F(12) then Ok(Outcome(app.(showLogs := !app.showLogs), []))
    else Forward(app, key)
  }

  /** `handle_key_events_log_window`: no key reaches a tab, and the quit
      flag, the tabs and the focus never change. */
  function HandleLogKey(app: App, key: KeyEvent): (r: App)
    ensures r.(showLogs := app.showLogs, logPaging := app.logPaging) == app
    ensures key.code == Char('q') ==> !r.showLogs
    ensures key.code == F(12) ==> r.showLogs == !app.showLogs
    ensures key.code !in {Char('q'), F(12)} ==> r.showLogs == app.showLogs
    ensures r.logPaging == app.logPaging +
      (if key.code == Char('j') then [NextPage] else if key.code == Char('k') then [PrevPage] else [])
  {
    match key.code
    case Char('j') => app.(logPaging := app.logPaging + [NextPage])
    case Char('k') => app.(logPaging := app.logPaging + [PrevPage])
    case Char('q') => app.(showLogs := false)
    case F(12) => app.(showLogs := !app.showLogs)
    case _ => app
  }

  /** `handle_events`: only key presses are dispatched, to the overlay when
      it is shown and to the main view otherwise. */
  function HandleEvent(app: App, ev: TermEvent): (r: Checked<Outcome>)
    requires Valid(app)
    ensures r.Ok? ==> Valid(r.value.app) && SameTabFrames(app.tabs, r.value.app.tabs)
    ensures !(ev.Key? && ev.key.kind == Press) ==> r == Ok(Outcome(app, []))
    ensures ev.Key? && ev.key.kind == Press && app.showLogs ==>
      r == Ok(Outcome(HandleLogKey(app, ev.key), []))
    ensures ev.Key? && ev.key.kind == Press && !app.showLogs ==> r == HandleMainKey(app, ev.key)
    ensures r.Ok? && r.value.app.doQuit != app.doQuit ==>
      ev.Key? && ev.key.kind == Press && ev.key.code == Char('q') && !app.showLogs
  {
    match ev
    case Key(key) =>
      if key.kind == Press then
        if app.showLogs then Ok(Outcome(HandleLogKey(app, key), []))
        else HandleMainKey(app, key)
      else Ok(Outcome(app, []))
    case _ => Ok(Outcome(app, []))
  }

  /** The state effect of drawing a frame: the main view draws the focused
      tab, which refreshes that tab's cached item count; the log overlay
      draws no tab. */
  function DrawFrame(app: App): (r: App)
    requires Valid(app)
    ensures Valid(r) && SameTabFrames(app.tabs, r.tabs)
    ensures r.(tabs := app.tabs) == app
    ensures !app.showLogs ==> r.tabs[r.currentTab] == Tabs.Draw(app.tabs[app.currentTab])
    ensures forall k :: 0 <= k < |app.tabs| && (k != app.currentTab || app.showLogs) ==> r.tabs[k] == app.tabs[k]
  {
    if app.showLogs then app
    else app.(tabs := app.tabs[app.currentTab := Tabs.Draw(app.tabs[app.currentTab])])
  }

  /** Keeping every tab's frame keeps the enabled count and the entries. */
  lemma SameFramesKeepShape(a: App, b: App)
    requires SameTabFrames(a.tabs, b.tabs)
    ensures TabsHaveItems(a) ==> TabsHaveItems(b)
    ensures TabSwitch.EnabledCount(a.tabs) == TabSwitch.EnabledCount(b.tabs)
  {
    EnabledCountOfFrames(a.tabs, b.tabs);
  }

  lemma {:induction false} EnabledCountOfFrames(a: seq<Tabs.Tab>, b: seq<Tabs.Tab>)
    requires SameTabFrames(a, b)
    ensures TabSwitch.EnabledCount(a) == TabSwitch.EnabledCount(b)
  {
    if |a| > 0 {
      assert Tabs.SameFrame(a[0], b[0]);
      forall k | 0 <= k < |a| - 1
        ensures Tabs.SameFrame(a[1..][k], b[1..][k])
      {
        assert a[1..][k] == a[k + 1] && b[1..][k] == b[k + 1];
      }
      EnabledCountOfFrames(a[1..], b[1..]);
    }
  }

  /** After a frame is drawn, no event makes the controller panic. */
  lemma DrawnFrameNeverPanics(app: App, ev: TermEvent)
    requires Valid(app) && TabsHaveItems(app)
    ensures HandleEvent(DrawFrame(app), ev).Ok?
  {
    var drawn := DrawFrame(app);
    if !app.showLogs {
      Tabs.DrawnTabNeverPanics(app.tabs[app.currentTab], if ev.Key? then ev.key else Pressed(Null, {}));
    }
  }

  /** With the default tabs, next-tab switching alternates between the
      first two tabs and never focuses the disabled ones. */
  lemma {:induction false} DefaultTabsAlternate(k: nat)
    ensures TabSwitch.NextIterate(DefaultTabs(), 0, k) == k % 2
  {
    var tabs := DefaultTabs();
    assert TabSwitch.EnabledCount(tabs) == 2 by {
      assert Default().tabs == tabs;
    }
    if k > 0 {
      DefaultTabsAlternate(k - 1);
      if (k - 1) % 2 == 0 {
        assert TabSwitch.SwitchNext(tabs, 0) == 1;
      } else {
        assert TabSwitch.SwitchNext(tabs, 3) == 0;
        assert TabSwitch.SwitchNext(tabs, 2) == 0;
        assert TabSwitch.SwitchNext(tabs, 1) == 0;
      }
    }
  }

  /** F12 opens the log overlay and `q` then closes only the overlay. */
  lemma OverlayThenQ(app: App)
    requires Valid(app) && !app.showLogs && app.doQuit == Running
    ensures var shown := HandleEvent(app, Key(Pressed(F(12), {})));
      && shown.Ok? && shown.value.app.showLogs
      && var closed := HandleEvent(shown.value.app, Key(Pressed(Char('q'), {})));
      && closed.Ok? && !closed.value.app.showLogs && closed.value.app.doQuit == Running
      && closed.value.app == app
  {
  }

  /** One turn of `run`: draw a frame, then handle one event.  Drawing
      first refreshes the focused tab's cached count, so handling cannot
      panic. */
  function Frame(app: App, ev: TermEvent): (r: Outcome)
    requires Valid(app) && TabsHaveItems(app)
    ensures Valid(r.app) && TabsHaveItems(r.app) && SameTabFrames(app.tabs, r.app.tabs)
    ensures Ok(r) == HandleEvent(DrawFrame(app), ev)
  {
    var drawn := DrawFrame(app);
    SameFramesKeepShape(app, drawn);
    DrawnFrameNeverPanics(app, ev);
    var outcome := HandleEvent(drawn, ev).value;
    SameFramesKeepShape(drawn, outcome.app);
    outcome
  }

  /** What a run produced: the last state, how many inputs it consumed and
      the events tabs raised along the way. */
  datatype RunResult = RunResult(final: App, consumed: nat, raised: seq<AppEvent>)

  /** `run` as a fold: stop at once when quitting or out of input,
      otherwise take one turn on the first input and continue. */
  function RunFrom(app: App, inputs: seq<TermEvent>): (r: RunResult)
    requires Valid(app) && TabsHaveItems(app)
    ensures r.consumed <= |inputs| && |r.raised| <= r.consumed
    ensures Valid(r.final) && TabsHaveItems(r.final) && SameTabFrames(app.tabs, r.final.tabs)
    ensures r.final.doQuit == Close || r.consumed == |inputs|
    ensures app.doQuit == Close ==> r.consumed == 0 && r.final == app
    ensures r.final.doQuit == Close && app.doQuit == Running ==>
      r.consumed >= 1 && inputs[r.consumed - 1].Key? && inputs[r.consumed - 1].key.code == Char('q')
    decreases |inputs|
  {
    if app.doQuit == Close || |inputs| == 0 then RunResult(app, 0, [])
    else
      var o := Frame(app, inputs[0]);
      var rest := RunFrom(o.app, inputs[1..]);
      RunResult(rest.final, rest.consumed + 1, o.events + rest.raised)
  }

  /** A run that has already produced `done` and continues with `rest`. */
  function Continue(done: RunResult, rest: RunResult): RunResult {
    RunResult(rest.final, done.consumed + rest.consumed, done.raised + rest.raised)
  }

  /** A `q` in the main view ends the run right there: later inputs are
      never read. */
  lemma RunStopsAtQ(app: App, inputs: seq<TermEvent>)
    requires Valid(app) && TabsHaveItems(app) && app.doQuit == Running && !app.showLogs
    requires |inputs| >= 1 && inputs[0] == Key(Pressed(Char('q'), {}))
    ensures RunFrom(app, inputs).consumed == 1 && RunFrom(app, inputs).final.doQuit == Close
  {
    var o := Frame(app, inputs[0]);
    assert o.app.doQuit == Close;
  }

  /** Taking one more turn moves the split point of a run by one input. */
  lemma RunOneMore(a: App, inputs: seq<TermEvent>, i: nat, raised: seq<AppEvent>)
    requires Valid(a) && TabsHaveItems(a) && a.doQuit == Running && i < |inputs|
    ensures var o := Frame(a, inputs[i]);
      Continue(RunResult(a, i, raised), RunFrom(a, inputs[i..])) ==
      Continue(RunResult(o.app, i + 1, raised + o.events), RunFrom(o.app, inputs[i + 1..]))
  {
    var o := Frame(a, inputs[i]);
    var xs := inputs[i..];
    assert xs[0] == inputs[i] && xs[1..] == inputs[i + 1..];
    var rest := RunFrom(o.app, inputs[i + 1..]);
    assert RunFrom(a, xs) == RunResult(rest.final, rest.consumed + 1, o.events + rest.raised);
    ConcatAssoc(raised, o.events, rest.raised);
  }

  lemma ConcatAssoc<T>(a: seq<T>, b: seq<T>, c: seq<T>)
    ensures a + (b + c) == (a + b) + c
  {
  }

  /** `run`: while the quit flag is unset, draw a frame and handle the next
      event.  `inputs` are the events the terminal delivers; the loop also
      stops when they run out. */
  method Run(app: App, inputs: seq<TermEvent>) returns (final: App, consumed: nat, raised: seq<AppEvent>)
    requires Valid(app) && TabsHaveItems(app)
    ensures consumed <= |inputs|
    ensures Valid(final) && TabsHaveItems(final) && SameTabFrames(app.tabs, final.tabs)
    ensures final.doQuit == Close || consumed == |inputs|
    ensures app.doQuit == Close ==> consumed == 0 && final == app
    ensures final.doQuit == Close && app.doQuit == Running ==>
      consumed >= 1 && inputs[consumed - 1].Key? && inputs[consumed - 1].key.code == Char('q')
    ensures |raised| <= consumed
    ensures RunResult(final, consumed, raised) == RunFrom(app, inputs)
  {
    final, consumed, raised := app, 0, [];
    while final.doQuit == Running && consumed < |inputs|
      invariant consumed <= |inputs|
      invariant Valid(final) && TabsHaveItems(final)
      invariant RunFrom(app, inputs) ==
        Continue(RunResult(final, consumed, raised), RunFrom(final, inputs[consumed..]))
      decreases |inputs| - consumed
    {
      var outcome := Frame(final, inputs[consumed]);
      RunOneMore(final, inputs, consumed, raised);
      final := outcome.app;
      raised := raised + outcome.events;
      consumed := consumed + 1;
    }
  }
}

=== FILE: geometry.dfy ===
/** Popup placement.  Both popups compute a horizontally and vertically
    centred rectangle of a fixed height in `u16` arithmetic, then make it
    taller by `footerLen / width` rows when it is narrower than the footer
    line.  A debug build panics on every out-of-range `u16` result and on
    the division when the popup is zero columns wide. */
module Geometry {
  import opened Common

  datatype Rect = Rect(x: u16, y: u16, width: u16, height: u16)

  /** `centered_rect_exact_height`, as written.  The result is positioned
      relative to (0, 0): `area.x` and `area.y` are not used. */
  function CenteredRectExactHeight(percentX: u16, height: u16, area: Rect): (r: Checked<Rect>)
    ensures r == Panic(Overflow) <==> area.width * percentX > U16_MAX
    ensures r.Ok? <==>
      && area.width * percentX <= U16_MAX
      && area.width * percentX / 100 <= area.width
      && height <= area.height
    ensures r.Ok? ==>
      && r.value.width == area.width * percentX / 100
      && r.value.height == height
      // centred: the right/bottom margin equals the left/top one or is one wider
      && 0 <= (area.width - r.value.x - r.value.width) - r.value.x <= 1
      && 0 <= (area.height - r.value.y - r.value.height) - r.value.y <= 1
  {
    var product := area.width * percentX;
    if product > U16_MAX then Panic(Overflow)
    else
      var popupWidth := product / 100;
      if popupWidth > area.width then Panic(Underflow)
      else if height > area.height then Panic(Underflow)
      else Ok(Rect((area.width - popupWidth) / 2, (area.height - height) / 2, popupWidth, height))
  }

  /** Both popups ask for at most 100 rows, so the rectangle handed to
      ratatui's `Rect::new` never has an area above `u16::MAX` and is not
      clipped by it. */
  lemma WithinClipBound(percentX: u16, height: u16, area: Rect)
    requires height <= 100
    ensures var r := CenteredRectExactHeight(percentX, height, area);
      r.Ok? ==> r.value.width * r.value.height <= U16_MAX
  {
    var r := CenteredRectExactHeight(percentX, height, area);
    if r.Ok? {
      var w: nat := area.width * percentX / 100;
      assert w <= 655;
      assert r.value.width == w && r.value.height == height;
      MulBound(w, height, 655, 100);
    }
  }

  lemma MulBound(a: nat, b: nat, ma: nat, mb: nat)
    requires a <= ma && b <= mb
    ensures a * b <= ma * mb
  {
    assert a * b <= ma * b;
    assert ma * b <= ma * mb;
  }

  /** With a percentage of at most 100 the width never exceeds the area's,
      so only the multiplication and the height can fail. */
  lemma CenteredRectFits(percentX: u16, height: u16, area: Rect)
    requires percentX <= 100
    ensures var r := CenteredRectExactHeight(percentX, height, area);
      && (r.Ok? <==> area.width * percentX <= U16_MAX && height <= area.height)
      && (r.Ok? ==> r.value.x + r.value.width <= area.width)
  {
    ScaledWidthFits(area.width, percentX);
  }

  lemma ScaledWidthFits(width: nat, percent: nat)
    requires percent <= 100
    ensures width * percent / 100 <= width
  {
    assert width * percent <= width * 100;
  }

  /** The popup rectangle does not depend on where the area starts. */
  lemma CenteredRectIgnoresOrigin(percentX: u16, height: u16, a: Rect, b: Rect)
    requires a.width == b.width && a.height == b.height
    ensures CenteredRectExactHeight(percentX, height, a) == CenteredRectExactHeight(percentX, height, b)
  {
  }

  /** The footer height adjustment in `render_widget`, as written: a popup
      narrower than `footerLen` gains `footerLen / width` rows, enough for
      the footer line wrapped at the popup's width. */
  function FooterAdjust(area: Rect, footerLen: u16): (r: Checked<Rect>)
    ensures r == Panic(DivideByZero) <==> area.width == 0 && footerLen > 0
    ensures r.Ok? <==>
      area.width >= footerLen || (area.width > 0 && area.height + footerLen / area.width <= U16_MAX)
    ensures r.Ok? ==> r.value.(height := area.height) == area
    ensures r.Ok? && area.width < footerLen ==>
      r.value.height == area.height + footerLen / area.width
    ensures r.Ok? ==> (r.value.height == area.height <==> area.width >= footerLen)
    ensures r.Ok? && area.width < footerLen ==>
      (r.value.height - area.height + 1) * area.width > footerLen
  {
    if area.width < footerLen then
      if area.width == 0 then Panic(DivideByZero)
      else
        var extra := footerLen / area.width;
        DivisionRoundsDown(footerLen, area.width);
        var grown := area.height + extra;
        if grown > U16_MAX then Panic(Overflow) else Ok(area.(height := grown))
    else Ok(area)
  }

  lemma DivisionRoundsDown(a: nat, b: nat)
    requires 0 < b <= a
    ensures 1 <= a / b && (a / b + 1) * b > a
  {
    assert a == (a / b) * b + a % b;
  }

  // -----------------------------------------------------------------------
  // Corrected placement: the same rectangle whenever the code above
  // succeeds, and a rectangle instead of a panic when it does not.

  /** Width computed without a `u16` product, and the top margin clamped at
      zero when the area is shorter than the popup. */
  function CenteredRectSaturating(percentX: u16, height: u16, area: Rect): (r: Rect)
    requires percentX <= 100
    ensures r.width == area.width * percentX / 100 && r.height == height
    ensures r.x + r.width <= area.width
    ensures height <= area.height ==> r.y + r.height <= area.height
    ensures height > area.height ==> r.y == 0
    ensures CenteredRectExactHeight(percentX, height, area).Ok? ==>
      CenteredRectExactHeight(percentX, height, area).value == r
  {
    ScaledWidthFits(area.width, percentX);
    var popupWidth := area.width * percentX / 100;
    var top := if height <= area.height then (area.height - height) / 2 else 0;
    Rect((area.width - popupWidth) / 2, top, popupWidth, height)
  }

  /** No division for a zero-width popup, and a saturating addition. */
  function FooterAdjustGuarded(area: Rect, footerLen: u16): (r: Rect)
    ensures r.(height := area.height) == area && r.height >= area.height
    ensures area.width == 0 ==> r == area
    ensures 0 < area.width < footerLen && r.height < U16_MAX ==>
      (r.height - area.height + 1) * area.width > footerLen
    ensures FooterAdjust(area, footerLen).Ok? ==> FooterAdjust(area, footerLen).value == r
  {
    if 0 < area.width < footerLen then
      DivisionRoundsDown(footerLen, area.width);
      area.(height := Min(area.height + footerLen / area.width, U16_MAX))
    else area
  }
}

=== FILE: input.dfy ===
/** Terminal input as the program receives it from the terminal library:
    key codes, modifier sets, press/repeat/release kinds, and the other
    events the frame loop ignores. */
module Input {

  datatype KeyCode =
    | Char(c: char)
    | Enter | Esc | Tab | BackTab | Backspace | Delete | Insert
    | Up | Down | Left | Right | Home | End | PageUp | PageDown
    | F(n: nat)
    | Null

  datatype KeyModifier = Shift | Control | Alt | Super | Hyper | Meta

  datatype KeyEventKind = Press | Repeat | Release

  datatype KeyEvent = KeyEvent(code: KeyCode, modifiers: set<KeyModifier>, kind: KeyEventKind)

  datatype TermEvent =
    | Key(key: KeyEvent)
    | FocusGained
    | FocusLost
    | Mouse
    | Paste(text: string)
    | Resize(columns: nat, rows: nat)

  /** A plain key press with the given modifiers. */
  function Pressed(code: KeyCode, modifiers: set<KeyModifier>): KeyEvent {
    KeyEvent(code, modifiers, Press)
  }
}

/** The notifications tabs and popups raise for the controller.  Only the
    variants the modelled code sends are present. */
module AppEvents {

  datatype AppEvent = NewConnection | CancelClosePopup | ConfirmQuitApp
}

=== FILE: list_cursor.dfy ===
/** The selection cursor shared by the two list-backed tabs (database types
    and connections).  Both tabs move the cursor with the same code: the
    selection is a `ListState`'s optional index, "nothing selected" reads as
    item 0, and `count` is the tab's cached item count, an unsigned integer,
    so `count - 1` panics when the count is zero. */
module ListCursor {
  import opened Common

  /** Down or `j`: from the last item back to the first, otherwise one item
      further (clamped to the last item when the selection is out of range). */
  function Down(selected: Option<nat>, count: nat): (r: Checked<nat>)
    ensures r.Panic? <==> count == 0
    ensures r.Ok? ==> r.value < count
    ensures r.Ok? && selected.UnwrapOr(0) < count ==> r.value == (selected.UnwrapOr(0) + 1) % count
    ensures r.Ok? && selected.UnwrapOr(0) >= count ==> r.value == count - 1
  {
    var current := selected.UnwrapOr(0);
    if count == 0 then Panic(Underflow)
    else if current == count - 1 then Ok(0)
    else Ok(Min(current + 1, count - 1))
  }

  /** Up or `k`: from the first item to the last, otherwise one item back.
      Only the wrap from item 0 computes `count - 1`. */
  function Up(selected: Option<nat>, count: nat): (r: Checked<nat>)
    ensures r.Panic? <==> selected.UnwrapOr(0) == 0 && count == 0
    ensures r.Ok? && selected.UnwrapOr(0) < count ==> r.value == (selected.UnwrapOr(0) + count - 1) % count
    ensures r.Ok? && selected.UnwrapOr(0) > 0 ==> r.value + 1 == selected.UnwrapOr(0)
  {
    var current := selected.UnwrapOr(0);
    if current == 0 then
      if count == 0 then Panic(Underflow) else Ok(count - 1)
    else Ok(current - 1)
  }

  /** An in-range selection stays in range under both moves. */
  lemma MovesStayInRange(selected: Option<nat>, count: nat)
    requires selected.UnwrapOr(0) < count
    ensures Down(selected, count).Ok? && Down(selected, count).value < count
    ensures Up(selected, count).Ok? && Up(selected, count).value < count
  {
  }

  /** Wrap-around at both ends of a non-empty list. */
  lemma WrapsAtBothEnds(count: nat)
    requires count >= 1
    ensures Down(Some(count - 1), count) == Ok(0)
    ensures Up(Some(0), count) == Ok(count - 1)
    ensures Up(None, count) == Ok(count - 1)
  {
  }

  /** Up undoes Down, and Down undoes Up, for an in-range selection. */
  lemma UpDownInverse(i: nat, count: nat)
    requires i < count
    ensures Up(Some(Down(Some(i), count).value), count) == Ok(i)
    ensures Down(Some(Up(Some(i), count).value), count) == Ok(i)
  {
  }

  /** A one-item list never moves its (in-range) cursor. */
  lemma SingleItemStays(selected: Option<nat>)
    requires selected.UnwrapOr(0) == 0
    ensures Down(selected, 1) == Ok(0)
    ensures Up(selected, 1) == Ok(0)
  {
  }
}

=== FILE: quit_confirm_popup.dfy ===
/** The quit confirmation popup: a stateless gate from one key to at most
    one event.  Modifiers are ignored. */
module QuitConfirmPopup {
  import opened Common
  import opened Input
  import opened AppEvents
  import opened Geometry

  const FooterText: string := "Q or Enter: quit | Esc or C: Cancel"
  const FooterMargin: u16 := 15
  const FooterLen: u16 := |FooterText| + FooterMargin

  /** Keys that dismiss the popup, and keys that confirm quitting. */
  predicate IsCancelKey(code: KeyCode) {
    code == Esc || code == Char('c')
  }

  predicate IsConfirmKey(code: KeyCode) {
    code == Enter || code == Char('q')
  }

  /** `handle_input`: the events sent on the bus for one key. */
  function HandleInput(key: KeyEvent): (events: seq<AppEvent>)
    ensures |events| <= 1
    ensures events == [CancelClosePopup] <==> IsCancelKey(key.code)
    ensures events == [ConfirmQuitApp] <==> IsConfirmKey(key.code)
    ensures events == [] <==> !IsCancelKey(key.code) && !IsConfirmKey(key.code)
  {
    if IsCancelKey(key.code) then [CancelClosePopup]
    else if IsConfirmKey(key.code) then [ConfirmQuitApp]
    else []
  }

  /** The outcome of a key does not depend on modifiers or key kind. */
  lemma IgnoresModifiers(a: KeyEvent, b: KeyEvent)
    requires a.code == b.code
    ensures HandleInput(a) == HandleInput(b)
  {
  }

  /** The rectangle `render_widget` draws into: 40% wide, 8 rows high,
      taller when narrower than the footer. */
  function RenderArea(area: Rect): (r: Checked<Rect>)
    ensures r.Ok? <==> 8 <= area.height && 3 <= area.width <= 1638
    ensures r.Ok? ==> r.value.width == area.width * 40 / 100 && r.value.x + r.value.width <= area.width
    ensures r.Ok? ==> (r.value.height == 8 <==> area.width >= 125)
    ensures r.Ok? && r.value.width < FooterLen ==>
      r.value.height == 8 + FooterLen / r.value.width
  {
    CenteredRectFits(40, 8, area);
    match CenteredRectExactHeight(40, 8, area)
    case Panic(f) => Panic(f)
    case Ok(centred) => FooterAdjust(centred, FooterLen)
  }

  /** A terminal shorter than the popup, or at most two columns wide, or
      more than 1638 columns wide crashes the render. */
  lemma RenderAreaPanics()
    ensures RenderArea(Rect(0, 0, 80, 7)) == Panic(Underflow)
    ensures RenderArea(Rect(0, 0, 2, 24)) == Panic(DivideByZero)
    ensures RenderArea(Rect(0, 0, 1639, 24)) == Panic(Overflow)
  {
  }
}

=== FILE: styling.dfy ===
/** The theme: a record of colours and the pure functions that turn
    `(enabled, selected)` flags into a terminal style.  A style is a
    foreground, a background and a set of added modifiers; setting a colour
    overwrites it and adding a modifier takes a union, as in the terminal
    widget library. */
module Styling {
  import opened Common

  datatype Color =
    | Reset | Black | Red | Green | Yellow | Blue | Magenta | Cyan | Gray
    | DarkGray | LightRed | LightGreen | LightYellow | LightBlue
    | LightMagenta | LightCyan | White
    | Rgb(r: nat, g: nat, b: nat)
    | Indexed(index: nat)

  datatype Modifier =
    | Bold | Dim | Italic | Underlined | SlowBlink | RapidBlink
    | Reversed | Hidden | CrossedOut

  datatype Style = Style(fg: Option<Color>, bg: Option<Color>, mods: set<Modifier>) {

    function Fg(c: Color): Style {
      this.(fg := Some(c))
    }

    function Bg(c: Color): Style {
      this.(bg := Some(c))
    }

    function AddModifier(m: Modifier): Style {
      this.(mods := mods + {m})
    }
  }

  /** `Style::default()`: nothing set. */
  const Plain: Style := Style(None, None, {})

  datatype Theme = Theme(
    selectedTab: Color,
    commandFg: Color,
    selectionBg: Color,
    selectionFg: Color,
    cmdbarBg: Color,
    cmdbarExtraLinesBg: Color,
    disabledFg: Color,
    enabledFg: Color,
    dangerFg: Color,
    lineBreak: string,
    blockTitleFocused: Color)

  /** The built-in theme. */
  function DefaultTheme(): (t: Theme)
    ensures t.selectedTab == Yellow && t.disabledFg == DarkGray && t.enabledFg == Blue
    ensures t.selectionBg == Blue && t.selectionFg == White && t.commandFg == White
    ensures t.cmdbarBg == Blue && t.cmdbarExtraLinesBg == Blue
    ensures t.dangerFg == Red && t.blockTitleFocused == Reset && t.lineBreak == "¶"
  {
    Theme(
      selectedTab := Yellow,
      commandFg := White,
      selectionBg := Blue,
      selectionFg := White,
      cmdbarBg := Blue,
      cmdbarExtraLinesBg := Blue,
      disabledFg := DarkGray,
      enabledFg := Blue,
      dangerFg := Red,
      lineBreak := "¶",
      blockTitleFocused := Reset)
  }

  /** Loading a theme from a file: the body ignores the path and yields the
      built-in theme. */
  function Init(themePath: string): (t: Theme)
    ensures t == DefaultTheme()
  {
    DefaultTheme()
  }

  /** Border style: a focused block is unstyled, an unfocused one greyed out. */
  function BlockStyle(th: Theme, focus: bool): (s: Style)
    ensures s.bg == None && s.mods == {}
    ensures focus <==> s.fg == None
    ensures !focus ==> s.fg == Some(th.disabledFg)
  {
    if focus then Plain else Plain.Fg(th.disabledFg)
  }

  /** Block title style: only a focused title is bold. */
  function TitleStyle(th: Theme, focused: bool): (s: Style)
    ensures s.bg == None
    ensures s.mods == (if focused then {Bold} else {})
    ensures s.fg == Some(if focused then th.blockTitleFocused else th.disabledFg)
  {
    if focused then Plain.Fg(th.blockTitleFocused).AddModifier(Bold)
    else Plain.Fg(th.disabledFg)
  }

  /** Text style over the four `(enabled, selected)` cases.  Exactly one of
      the two colours is set; a disabled item only ever shows the disabled
      colour, and only a selected disabled item uses it as background. */
  function TextStyle(th: Theme, enabled: bool, selected: bool): (s: Style)
    ensures s.mods == {}
    ensures s.fg.Some? != s.bg.Some?
    ensures s.bg.Some? <==> !enabled && selected
    ensures !enabled ==> (if selected then s.bg else s.fg) == Some(th.disabledFg)
    ensures enabled ==> s.fg == Some(if selected then th.commandFg else th.enabledFg)
  {
    match (enabled, selected)
    case (false, false) => Plain.Fg(th.disabledFg)
    case (false, true) => Plain.Bg(th.disabledFg)
    case (true, false) => Plain.Fg(th.enabledFg)
    case (true, true) => Plain.Fg(th.commandFg)
  }

  /** Tab label style: an unselected tab looks like unselected text; a
      selected tab's text style is overwritten by the highlight, so the
      enabled flag no longer matters. */
  function TabStyle(th: Theme, enabled: bool, selected: bool): (s: Style)
    ensures !selected ==> s == TextStyle(th, enabled, false)
    ensures selected ==> s == Style(Some(th.selectedTab), Some(Reset), {Bold})
  {
    if selected then TextStyle(th, enabled, selected).Fg(th.selectedTab).Bg(Reset).AddModifier(Bold)
    else TextStyle(th, enabled, selected)
  }

  /** Selection highlight: selection colours on top of `style`, or `style`
      itself when not selected.  Modifiers are never touched. */
  function ApplySelect(th: Theme, style: Style, selected: bool): (s: Style)
    ensures s.mods == style.mods
    ensures !selected ==> s == style
    ensures selected ==> s.fg == Some(th.selectionFg) && s.bg == Some(th.selectionBg)
  {
    if selected then style.Bg(th.selectionBg).Fg(th.selectionFg) else style
  }

  /** Command bar style: foreground by enabled flag, background by whether
      this is the first line of the bar. */
  function CommandbarStyle(th: Theme, enabled: bool, line: nat): (s: Style)
    ensures s.mods == {}
    ensures s.fg == Some(th.commandFg) || s.fg == Some(th.disabledFg)
    ensures th.commandFg != th.disabledFg ==> (s.fg == Some(th.commandFg) <==> enabled)
    ensures th.cmdbarBg != th.cmdbarExtraLinesBg ==> (s.bg == Some(th.cmdbarBg) <==> line == 0)
    ensures s.bg == Some(if line == 0 then th.cmdbarBg else th.cmdbarExtraLinesBg)
  {
    (if enabled then Plain.Fg(th.commandFg) else Plain.Fg(th.disabledFg))
      .Bg(if line == 0 then th.cmdbarBg else th.cmdbarExtraLinesBg)
  }

  /** Selecting a tab hides whether it is enabled. */
  lemma SelectedTabIgnoresEnabled(th: Theme)
    ensures TabStyle(th, true, true) == TabStyle(th, false, true)
  {
  }

  /** Selecting already-selected text again changes nothing. */
  lemma ApplySelectIdempotent(th: Theme, style: Style, selected: bool)
    ensures ApplySelect(th, ApplySelect(th, style, selected), selected) == ApplySelect(th, style, selected)
  {
  }

  /** Under the built-in theme the three tab looks (enabled, disabled,
      highlighted) are pairwise different, and every command-bar line has the
      same background. */
  lemma DefaultThemeDistinguishesTabs(line: nat)
    ensures TabStyle(DefaultTheme(), true, false) != TabStyle(DefaultTheme(), false, false)
    ensures TabStyle(DefaultTheme(), true, true) != TabStyle(DefaultTheme(), true, false)
    ensures TabStyle(DefaultTheme(), true, true) != TabStyle(DefaultTheme(), false, false)
    ensures CommandbarStyle(DefaultTheme(), true, line).bg == Some(Blue)
  {
  }
}

=== FILE: tab_switch.dfy ===
/** The controller's tab-focus algorithm.  Switching first counts the
    enabled tabs and does nothing when fewer than two are enabled; otherwise
    it steps the index by one position modulo the total tab count (disabled
    tabs included) and, while it lands on a disabled tab, steps again.

    The specifications below use linear cyclic arithmetic on indices below
    `n`: `Ahead(i, e, n)` is `e` positions after `i`, `Dist(i, k, n)` the
    number of forward steps from `i` to `k` (between 1 and `n`, so a full
    turn when `k == i`), and `Behind` / `BackDist` the same backwards. */
module TabSwitch {
  import opened Tabs

  predicate Enabled(tabs: seq<Tab>, k: nat)
    requires k < |tabs|
  {
    !IsDisabled(tabs[k])
  }

  /** Number of enabled tabs. */
  function EnabledCount(tabs: seq<Tab>): (c: nat)
    ensures c <= |tabs|
  {
    if |tabs| == 0 then 0
    else (if IsDisabled(tabs[0]) then 0 else 1) + EnabledCount(tabs[1..])
  }

  function Ahead(i: nat, e: nat, n: nat): (k: nat)
    requires i < n && e <= n
    ensures k < n
  {
    if i + e < n then i + e else i + e - n
  }

  function Dist(i: nat, k: nat, n: nat): (d: nat)
    requires i < n && k < n
    ensures 1 <= d <= n && Ahead(i, d, n) == k
    ensures d == n <==> k == i
  {
    if i < k then k - i else k + n - i
  }

  function Behind(i: nat, e: nat, n: nat): (k: nat)
    requires i < n && e <= n
    ensures k < n
  {
    if e <= i then i - e else i + n - e
  }

  function BackDist(i: nat, k: nat, n: nat): (d: nat)
    requires i < n && k < n
    ensures 1 <= d <= n && Behind(i, d, n) == k
    ensures d == n <==> k == i
  {
    if k < i then i - k else i + n - k
  }

  /** `r` is the first enabled tab strictly after `i`, cyclically. */
  ghost predicate IsNextEnabled(tabs: seq<Tab>, i: nat, r: nat)
    requires i < |tabs|
  {
    && r < |tabs|
    && Enabled(tabs, r)
    && forall e :: 1 <= e < Dist(i, r, |tabs|) ==> !Enabled(tabs, Ahead(i, e, |tabs|))
  }

  /** `r` is the first enabled tab strictly before `i`, cyclically. */
  ghost predicate IsPrevEnabled(tabs: seq<Tab>, i: nat, r: nat)
    requires i < |tabs|
  {
    && r < |tabs|
    && Enabled(tabs, r)
    && forall e :: 1 <= e < BackDist(i, r, |tabs|) ==> !Enabled(tabs, Behind(i, e, |tabs|))
  }

  /** Lowest enabled index; only the termination measures use it. */
  ghost function FirstEnabled(tabs: seq<Tab>): (k: nat)
    requires EnabledCount(tabs) >= 1
    ensures k < |tabs| && Enabled(tabs, k)
  {
    if !IsDisabled(tabs[0]) then 0
    else
      var k := FirstEnabled(tabs[1..]);
      assert tabs[1..][k] == tabs[k + 1];
      k + 1
  }

  /** `switch_next_tab`. */
  function SwitchNext(tabs: seq<Tab>, current: nat): (r: nat)
    ensures EnabledCount(tabs) < 2 ==> r == current
    ensures EnabledCount(tabs) >= 2 ==> r < |tabs| && Enabled(tabs, r)
    ensures EnabledCount(tabs) >= 2 && current < |tabs| ==>
      IsNextEnabled(tabs, current, r) && r != current
    decreases if EnabledCount(tabs) >= 1 && current < |tabs|
              then Dist(current, FirstEnabled(tabs), |tabs|) else |tabs| + 1
  {
    if EnabledCount(tabs) < 2 then current
    else
      var next := (current + 1) % |tabs|;
      StepForward(tabs, current, next);
      if IsDisabled(tabs[next]) then
        var r := SwitchNext(tabs, next);
        if current < |tabs| then
          NextEnabledExtends(tabs, current, next, r);
          MovesWhenTwoEnabled(tabs, current, r);
          r
        else r
      else if current < |tabs| then
        MovesWhenTwoEnabled(tabs, current, next);
        next
      else next
  }

  /** `switch_prev_tab`.  Indexing `tabs[current - 1]` needs `current` to
      be at most the tab count once switching is not a no-op. */
  function SwitchPrev(tabs: seq<Tab>, current: nat): (r: nat)
    requires EnabledCount(tabs) >= 2 ==> current <= |tabs|
    ensures EnabledCount(tabs) < 2 ==> r == current
    ensures EnabledCount(tabs) >= 2 ==> r < |tabs| && Enabled(tabs, r)
    ensures EnabledCount(tabs) >= 2 && current < |tabs| ==>
      IsPrevEnabled(tabs, current, r) && r != current
    decreases if EnabledCount(tabs) >= 1 && current < |tabs|
              then BackDist(current, FirstEnabled(tabs), |tabs|) else |tabs| + 1
  {
    if EnabledCount(tabs) < 2 then current
    else
      var prev := if current == 0 then |tabs| - 1 else current - 1;
      StepBackward(tabs, current, prev);
      if IsDisabled(tabs[prev]) then
        var r := SwitchPrev(tabs, prev);
        if current < |tabs| then
          PrevEnabledExtends(tabs, current, prev, r);
          MovesBackWhenTwoEnabled(tabs, current, r);
          r
        else r
      else if current < |tabs| then
        MovesBackWhenTwoEnabled(tabs, current, prev);
        prev
      else prev
  }

  // ---------------------------------------------------------------------
  // Proof helpers for the two switches.

  lemma StepForward(tabs: seq<Tab>, current: nat, next: nat)
    requires |tabs| >= 1 && next == (current + 1) % |tabs|
    ensures next < |tabs|
    ensures current < |tabs| ==> next == Ahead(current, 1, |tabs|)
    ensures current < |tabs| && EnabledCount(tabs) >= 1 && !Enabled(tabs, next) ==>
      Dist(next, FirstEnabled(tabs), |tabs|) < Dist(current, FirstEnabled(tabs), |tabs|)
  {
    var n := |tabs|;
    if current < n {
      if current + 1 < n {
        ModOfSmall(current + 1, n);
      } else {
        ModOfSmall(0, n);
        assert (current + 1) % n == (0 + n) % n;
      }
    }
  }

  lemma ModOfSmall(x: nat, n: nat)
    requires x < n
    ensures x % n == x && (x + n) % n == x
  {
  }

  lemma StepBackward(tabs: seq<Tab>, current: nat, prev: nat)
    requires |tabs| >= 1 && current <= |tabs|
    requires prev == if current == 0 then |tabs| - 1 else current - 1
    ensures prev < |tabs|
    ensures current < |tabs| ==> prev == Behind(current, 1, |tabs|)
    ensures current < |tabs| && EnabledCount(tabs) >= 1 && !Enabled(tabs, prev) ==>
      BackDist(prev, FirstEnabled(tabs), |tabs|) < BackDist(current, FirstEnabled(tabs), |tabs|)
  {
  }

  /** One disabled step followed by the first enabled tab after it is the
      first enabled tab after the starting point. */
  lemma NextEnabledExtends(tabs: seq<Tab>, current: nat, next: nat, r: nat)
    requires current < |tabs| && next == Ahead(current, 1, |tabs|)
    requires !Enabled(tabs, next) && IsNextEnabled(tabs, next, r)
    ensures IsNextEnabled(tabs, current, r)
  {
    var n := |tabs|;
    assert Dist(current, r, n) == Dist(next, r, n) + 1;
    forall e | 1 <= e < Dist(current, r, n)
      ensures !Enabled(tabs, Ahead(current, e, n))
    {
      if e > 1 {
        assert Ahead(current, e, n) == Ahead(next, e - 1, n);
      }
    }
  }

  lemma PrevEnabledExtends(tabs: seq<Tab>, current: nat, prev: nat, r: nat)
    requires current < |tabs| && prev == Behind(current, 1, |tabs|)
    requires !Enabled(tabs, prev) && IsPrevEnabled(tabs, prev, r)
    ensures IsPrevEnabled(tabs, current, r)
  {
    var n := |tabs|;
    assert BackDist(current, r, n) == BackDist(prev, r, n) + 1;
    forall e | 1 <= e < BackDist(current, r, n)
      ensures !Enabled(tabs, Behind(current, e, n))
    {
      if e > 1 {
        assert Behind(current, e, n) == Behind(prev, e - 1, n);
      }
    }
  }

  /** If every tab but `i` is disabled, at most one tab is enabled. */
  lemma {:induction false} OnlyOneEnabled(tabs: seq<Tab>, i: nat)
    requires forall k :: 0 <= k < |tabs| && k != i ==> !Enabled(tabs, k)
    ensures EnabledCount(tabs) <= 1
  {
    if |tabs| > 0 {
      var rest := tabs[1..];
      forall k | 0 <= k < |rest|
        ensures (i == 0 || k != i - 1) ==> !Enabled(rest, k)
      {
        assert rest[k] == tabs[k + 1];
        if i == 0 || k != i - 1 {
          assert !Enabled(tabs, k + 1);
        }
      }
      if i == 0 {
        NoneEnabled(rest);
      } else {
        OnlyOneEnabled(rest, i - 1);
        assert !Enabled(tabs, 0);
      }
    }
  }

  lemma {:induction false} NoneEnabled(tabs: seq<Tab>)
    requires forall k :: 0 <= k < |tabs| ==> !Enabled(tabs, k)
    ensures EnabledCount(tabs) == 0
  {
    if |tabs| > 0 {
      var rest := tabs[1..];
      forall k | 0 <= k < |rest|
        ensures !Enabled(rest, k)
      {
        assert rest[k] == tabs[k + 1];
        assert !Enabled(tabs, k + 1);
      }
      NoneEnabled(rest);
      assert !Enabled(tabs, 0);
    }
  }

  lemma MovesWhenTwoEnabled(tabs: seq<Tab>, current: nat, r: nat)
    requires EnabledCount(tabs) >= 2 && current < |tabs|
    requires IsNextEnabled(tabs, current, r)
    ensures r != current
  {
    var n := |tabs|;
    if r == current {
      forall k | 0 <= k < n && k != current
        ensures !Enabled(tabs, k)
      {
        assert Ahead(current, Dist(current, k, n), n) == k;
      }
      OnlyOneEnabled(tabs, current);
    }
  }

  lemma MovesBackWhenTwoEnabled(tabs: seq<Tab>, current: nat, r: nat)
    requires EnabledCount(tabs) >= 2 && current < |tabs|
    requires IsPrevEnabled(tabs, current, r)
    ensures r != current
  {
    var n := |tabs|;
    if r == current {
      forall k | 0 <= k < n && k != current
        ensures !Enabled(tabs, k)
      {
        assert Behind(current, BackDist(current, k, n), n) == k;
      }
      OnlyOneEnabled(tabs, current);
    }
  }

  // ---------------------------------------------------------------------
  // Properties of switching.

  /** The first enabled tab before a point is unique. */
  lemma PrevEnabledUnique(tabs: seq<Tab>, i: nat, p: nat, q: nat)
    requires i < |tabs| && IsPrevEnabled(tabs, i, p) && IsPrevEnabled(tabs, i, q)
    ensures p == q
  {
    var n := |tabs|;
    var dp, dq := BackDist(i, p, n), BackDist(i, q, n);
  }

  lemma NextEnabledUnique(tabs: seq<Tab>, i: nat, p: nat, q: nat)
    requires i < |tabs| && IsNextEnabled(tabs, i, p) && IsNextEnabled(tabs, i, q)
    ensures p == q
  {
    var n := |tabs|;
    var dp, dq := Dist(i, p, n), Dist(i, q, n);
  }

  /** Going back from the tab `switch_next_tab` chose lands on the start,
      when the start is enabled. */
  lemma NextThenPrev(tabs: seq<Tab>, i: nat)
    requires i < |tabs| && Enabled(tabs, i) && EnabledCount(tabs) >= 2
    ensures SwitchPrev(tabs, SwitchNext(tabs, i)) == i
  {
    var n := |tabs|;
    var r := SwitchNext(tabs, i);
    var d := Dist(i, r, n);
    assert BackDist(r, i, n) == d;
    forall e | 1 <= e < d
      ensures !Enabled(tabs, Behind(r, e, n))
    {
      assert Behind(r, e, n) == Ahead(i, d - e, n);
    }
    assert IsPrevEnabled(tabs, r, i);
    PrevEnabledUnique(tabs, r, SwitchPrev(tabs, r), i);
  }

  lemma PrevThenNext(tabs: seq<Tab>, i: nat)
    requires i < |tabs| && Enabled(tabs, i) && EnabledCount(tabs) >= 2
    ensures SwitchNext(tabs, SwitchPrev(tabs, i)) == i
  {
    var n := |tabs|;
    var r := SwitchPrev(tabs, i);
    var d := BackDist(i, r, n);
    assert Dist(r, i, n) == d;
    forall e | 1 <= e < d
      ensures !Enabled(tabs, Ahead(r, e, n))
    {
      assert Ahead(r, e, n) == Behind(i, d - e, n);
    }
    assert IsNextEnabled(tabs, r, i);
    NextEnabledUnique(tabs, r, SwitchNext(tabs, r), i);
  }

  /** `k` successive next-tab switches. */
  function NextIterate(tabs: seq<Tab>, start: nat, k: nat): nat {
    if k == 0 then start else SwitchNext(tabs, NextIterate(tabs, start, k - 1))
  }

  /** Forward offset of `k` from `start`, in `[0, n)`. */
  function Offset(start: nat, k: nat, n: nat): (d: nat)
    requires start < n && k < n
    ensures d < n && (d == 0 <==> k == start)
  {
    if start <= k then k - start else k + n - start
  }

  /** A next switch either arrives back at an enabled `start` or moves
      strictly further from it: it never jumps over it. */
  lemma NeverJumpsOverStart(tabs: seq<Tab>, start: nat, p: nat)
    requires start < |tabs| && p < |tabs| && Enabled(tabs, start) && EnabledCount(tabs) >= 2
    ensures var q := SwitchNext(tabs, p);
      q == start || Offset(start, q, |tabs|) > Offset(start, p, |tabs|)
  {
    var n := |tabs|;
    var q := SwitchNext(tabs, p);
    assert IsNextEnabled(tabs, p, q);
    var a, b := Offset(start, p, n), Offset(start, q, n);
    if q != start {
      // `start` lies `n - a` steps after `p` and is enabled, so the walk
      // from `p` stops at `q` no later than that.
      var e0 := n - a;
      assert Ahead(p, e0, n) == start;
      assert Dist(p, q, n) <= e0;
    }
  }

  lemma {:induction false} ReturnsWithinAux(tabs: seq<Tab>, start: nat, k: nat)
    requires start < |tabs| && Enabled(tabs, start) && EnabledCount(tabs) >= 2
    ensures NextIterate(tabs, start, k) < |tabs|
    ensures (exists j :: 1 <= j <= k && NextIterate(tabs, start, j) == start)
            || Offset(start, NextIterate(tabs, start, k), |tabs|) >= k
  {
    if k > 0 {
      ReturnsWithinAux(tabs, start, k - 1);
      var p := NextIterate(tabs, start, k - 1);
      NeverJumpsOverStart(tabs, start, p);
      if NextIterate(tabs, start, k) == start {
        assert 1 <= k <= k;
      }
    }
  }

  /** With at least two enabled tabs, repeated next switches from an enabled
      tab visit only enabled tabs and come back to it within `n` steps. */
  lemma ReturnsWithin(tabs: seq<Tab>, start: nat)
    requires start < |tabs| && Enabled(tabs, start) && EnabledCount(tabs) >= 2
    ensures forall k :: k >= 1 ==> NextIterate(tabs, start, k) < |tabs| && Enabled(tabs, NextIterate(tabs, start, k))
    ensures exists j :: 1 <= j <= |tabs| && NextIterate(tabs, start, j) == start
  {
    ReturnsWithinAux(tabs, start, |tabs|);
  }
}

=== FILE: tabs.dfy ===
/** The four tab kinds of the main view and their common contract: draw
    (whose only state effect is refreshing a cached item count), input
    handling, the disabled flag and the title.  The two list-backed tabs
    move a `ListCursor`; the connections tab also raises `NewConnection` on
    Enter; the databases and tables tabs ignore every key. */
module Tabs {
  import opened Common
  import opened Input
  import opened AppEvents
  import ListCursor

  /** The database engines offered by the types tab. */
  datatype DBTypes = Postgres | MySql | Maria | Sqlite

  /** Display name of an engine. */
  function AsStr(t: DBTypes): (name: string)
    ensures |name| > 0
  {
    match t
    case Postgres => "PostgreSQL"
    case MySql => "MySQL"
    case Maria => "MariaDB"
    case Sqlite => "SQLite"
  }

  /** The four engines have four different names. */
  lemma AsStrInjective(t: DBTypes, u: DBTypes)
    requires t != u
    ensures AsStr(t) != AsStr(u)
  {
  }

  /** The items the types tab lists, in display order. */
  const TypeItems: seq<DBTypes> := [Postgres, MySql, Maria, Sqlite]

  datatype Connection = Connection(
    name: string,
    host: string,
    port: u16,
    user: string,
    password: string,
    isCreateNew: bool)

  /** One tab.  `selection` is the list widget's selected index and
      `numTypes` / `numConnections` the item count cached by the last draw. */
  datatype Tab =
    | TypesTab(title: string, selection: Option<nat>, numTypes: nat, disabled: bool)
    | ConnectionsTab(title: string, connections: seq<Connection>, selection: Option<nat>,
                     numConnections: nat, disabled: bool)
    | DatabasesTab(title: string, disabled: bool)
    | TablesTab(title: string, disabled: bool)
  {
    predicate IsList() {
      TypesTab? || ConnectionsTab?
    }

    /** The cached count the cursor wraps at. */
    function ItemCount(): nat
      requires IsList()
    {
      if TypesTab? then numTypes else numConnections
    }
  }

  /** The types tab before its first draw: no cached count yet. */
  function DefaultTypesTab(): (t: Tab)
    ensures t.TypesTab? && t.title == "Types" && !IsDisabled(t)
    ensures t.selection == Some(0) && t.ItemCount() == 0
  {
    TypesTab("Types", Some(0), 0, false)
  }

  /** The placeholder entry that opens the new-connection form. */
  const CreateNewConnection: Connection :=
    Connection("Create New Connection", "", 0, "", "", true)

  /** The connections tab starts with only the placeholder entry, selected,
      and with a cached count that already matches the list. */
  function DefaultConnectionsTab(): (t: Tab)
    ensures t.ConnectionsTab? && t.title == "Connections" && !IsDisabled(t)
    ensures t.connections == [CreateNewConnection] && t.connections[0].isCreateNew
    ensures t.ItemCount() == |t.connections| == 1 && t.selection == Some(0)
  {
    ConnectionsTab("Connections", [CreateNewConnection], Some(0), 1, false)
  }

  function DefaultDatabasesTab(): (t: Tab)
    ensures t.DatabasesTab? && GetTitle(t) == "Databases" && IsDisabled(t)
  {
    DatabasesTab("Databases", true)
  }

  function DefaultTablesTab(): (t: Tab)
    ensures t.TablesTab? && GetTitle(t) == "Tables" && IsDisabled(t)
  {
    TablesTab("Tables", true)
  }

  function IsDisabled(t: Tab): bool {
    t.disabled
  }

  /** Changes the flag and nothing else. */
  function SetDisabled(t: Tab, disabled: bool): (r: Tab)
    ensures IsDisabled(r) == disabled
    ensures GetTitle(r) == GetTitle(t)
    ensures r.(disabled := t.disabled) == t
  {
    t.(disabled := disabled)
  }

  /** Reading the flag back gives what was set, and restoring the old flag
      restores the tab. */
  lemma SetThenGet(t: Tab, disabled: bool)
    ensures IsDisabled(SetDisabled(t, disabled)) == disabled
    ensures SetDisabled(SetDisabled(t, disabled), IsDisabled(t)) == t
  {
  }

  function GetTitle(t: Tab): string {
    t.title
  }

  /** What input handling may not change: kind, title, flag, connections. */
  predicate SameFrame(a: Tab, b: Tab) {
    && a.title == b.title
    && a.disabled == b.disabled
    && a.TypesTab? == b.TypesTab?
    && a.ConnectionsTab? == b.ConnectionsTab?
    && a.DatabasesTab? == b.DatabasesTab?
    && (a.ConnectionsTab? ==> b.ConnectionsTab? && a.connections == b.connections)
  }

  /** The state effect of drawing a tab: a list tab caches the number of
      items it just rendered. */
  function Draw(t: Tab): (r: Tab)
    ensures SameFrame(t, r)
    ensures r.TypesTab? ==> r.ItemCount() == |TypeItems|
    ensures r.ConnectionsTab? ==> r.ItemCount() == |r.connections|
    ensures r.IsList() ==> r.selection == t.selection
    ensures !r.IsList() ==> r == t
  {
    match t
    case TypesTab(_, _, _, _) => t.(numTypes := |TypeItems|)
    case ConnectionsTab(_, _, _, _, _) => t.(numConnections := |t.connections|)
    case _ => t
  }

  predicate IsDownKey(code: KeyCode) {
    code == Down || code == Char('j')
  }

  predicate IsUpKey(code: KeyCode) {
    code == Up || code == Char('k')
  }

  /** A list tab with index `i` selected. */
  function Select(t: Tab, i: nat): (r: Tab)
    requires t.IsList()
  {
    match t
    case TypesTab(title, _, n, d) => TypesTab(title, Some(i), n, d)
    case ConnectionsTab(title, cs, _, n, d) => ConnectionsTab(title, cs, Some(i), n, d)
  }

  /** The new tab state and the events raised on the bus. */
  datatype Step = Step(tab: Tab, events: seq<AppEvent>)

  /** One key delivered to a tab. */
  function HandleInput(t: Tab, key: KeyEvent): (r: Checked<Step>)
    ensures r.Ok? ==> SameFrame(t, r.value.tab)
    ensures r.Ok? ==> r.value.events == (if t.ConnectionsTab? && key.code == Enter then [NewConnection] else [])
    ensures r.Panic? <==>
      && t.IsList()
      && t.ItemCount() == 0
      && (IsDownKey(key.code) || (IsUpKey(key.code) && t.selection.UnwrapOr(0) == 0))
    ensures r.Ok? && t.IsList() && IsDownKey(key.code) ==>
      r.value.tab == Select(t, ListCursor.Down(t.selection, t.ItemCount()).value)
    ensures r.Ok? && t.IsList() && IsUpKey(key.code) ==>
      r.value.tab == Select(t, ListCursor.Up(t.selection, t.ItemCount()).value)
    ensures r.Ok? && t.IsList() && (IsDownKey(key.code) || IsUpKey(key.code)) ==>
      && r.value.tab.selection.Some?
      && (t.selection.UnwrapOr(0) < t.ItemCount() ==> r.value.tab.selection.value < t.ItemCount())
      && r.value.tab.ItemCount() == t.ItemCount()
    ensures !t.IsList() ==> r == Ok(Step(t, []))
    ensures !IsDownKey(key.code) && !IsUpKey(key.code) ==> r.Ok? && r.value.tab == t
  {
    match t
    case DatabasesTab(_, _) => Ok(Step(t, []))
    case TablesTab(_, _) => Ok(Step(t, []))
    case _ =>
      if t.ConnectionsTab? && key.code == Enter then Ok(Step(t, [NewConnection]))
      else if IsDownKey(key.code) then
        match ListCursor.Down(t.selection, t.ItemCount())
        case Panic(f) => Panic(f)
        case Ok(i) => Ok(Step(Select(t, i), []))
      else if IsUpKey(key.code) then
        match ListCursor.Up(t.selection, t.ItemCount())
        case Panic(f) => Panic(f)
        case Ok(i) => Ok(Step(Select(t, i), []))
      else Ok(Step(t, []))
  }

  /** A freshly drawn list tab never panics on a key, provided a
      connections tab has at least one entry to draw. */
  lemma DrawnTabNeverPanics(t: Tab, key: KeyEvent)
    requires t.ConnectionsTab? ==> |t.connections| >= 1
    ensures HandleInput(Draw(t), key).Ok?
  {
  }

  /** Before its first draw the types tab panics on Down: the cached count
      is still zero. */
  lemma UndrawnTypesTabPanics()
    ensures HandleInput(DefaultTypesTab(), Pressed(Down, {})) == Panic(Underflow)
  {
  }

  /** With the single default entry, moving never leaves index 0 and Enter
      asks for the new-connection form. */
  lemma DefaultConnectionsCursor(mods: set<KeyModifier>)
    ensures HandleInput(DefaultConnectionsTab(), Pressed(Down, mods)) ==
            Ok(Step(DefaultConnectionsTab(), []))
    ensures HandleInput(DefaultConnectionsTab(), Pressed(Up, mods)) ==
            Ok(Step(DefaultConnectionsTab(), []))
    ensures HandleInput(DefaultConnectionsTab(), Pressed(Enter, mods)) ==
            Ok(Step(DefaultConnectionsTab(), [NewConnection]))
  {
  }
}
